=== FILE: README.md ===
# crunchdao client: resumable download and request shaping, in Dafny

This project models the core of `crunchdao`, a Python client for the
CrunchDAO machine-learning tournament, and proves properties of the model.

- `download.dfy` (module `Download`) models `download_file` in
  `crunchdao/utils.py`. One call probes the URL and reads the announced size
  from `content-length`, which counts as 0 when the header is absent. It
  compares that size with the local file and takes one of four paths:
  fresh, partial, complete or inconsistent (the `Decision` datatype). On the
  partial path it resumes with an open-ended byte range, `bytes=N-`, as in
  section 2.1 of RFC 7233. On the fresh and inconsistent paths it restarts
  from byte 0. In every case but the complete one it then appends the body
  chunk by chunk. `Expected` gives the effect of one call as a function of
  the server's answers and the previous file. `DownloadFile` is the
  imperative routine over a `Disk` (a map from path to bytes) and a
  `Server` (fixed answers plus a log of the requests sent and of the bodies read), and it is
  proved to have exactly that effect.
- `api.dfy` (module `Api`) models the `Client` class of `crunchdao/api.py`:
  - choosing the API key, and the authorization guard of `raw_request`;
  - the URLs and parameters of `submissions` and `dataset_config`;
  - the reshaping of the dataset config;
  - the three paths `download_data` returns;
  - the classification of status codes in `upload`.
  The HTTP transport is a `Transport` object: a fixed decoded body for each
  GET, a fixed status for each POST, and a log of the calls made.
- `json.dfy` (module `Json`) holds decoded JSON values and the Python dict
  operations the client uses: `d[k]`, `d[k] = v`, `del d[k]` and a dict
  comprehension that renames keys. A dict is an insertion-ordered list of
  members. That is what Python dicts are, and it is what decides the
  comprehension's result when two keys are renamed to the same string.
- `decimal.dfy` (module `Decimal`) prints integers the way Python's `str()`
  does. It is used for the `Range` header and for the user and round in
  URLs.
- `wrappers.dfy` holds `Option` and `Result`.

Treated as inputs:
- the environment variable `CRUNCHDAO_API_KEY` is a constructor argument;
- `inflection.underscore` is a function parameter `rename`;
- the transport's answers are the functions held by `Server` and `Transport`;
- the bytes of `predictions.to_csv()` are a parameter of `Upload`.

## Model

| member | source | states |
|---|---|---|
| `Download.Decide` | crunchdao/utils.py:21-41 | Exactly one of four paths: fresh iff no local file; complete or inconsistent iff the local size is equal to or larger than the announced size; otherwise partial, resuming at the local size, which lies before the announced size |
| `Download.Probe` | crunchdao/utils.py:15 | Definition (no contract): the first request, a plain GET of `url` with no headers |
| `Download.RangeHeader` | crunchdao/utils.py:27 | Definition (no contract): the header value `bytes={file_size}-` |
| `Download.Resume` | crunchdao/utils.py:27-28 | Definition (no contract): the second request, a GET of the same `url` whose only header is `Range` |
| `Download.RangeHeaderNamesOffset` | crunchdao/utils.py:27 | The `Range` header `bytes=N-`, read as RFC 7233 reads it, asks for the bytes from exactly the local size on |
| `Download.RaisesForStatus` | crunchdao/utils.py:16 | Definition (no contract): `raise_for_status` raises for a 4xx or 5xx status, 400 to 599 |
| `Download.TotalSize` | crunchdao/utils.py:19 | Definition (no contract): the `content-length` value, 0 when the header is absent |
| `Download.ErrorStatusLeavesFileAlone` | crunchdao/utils.py:15-16 | A 4xx/5xx probe raises `HTTPError` with its status; the file is untouched and only the probe was sent |
| `Download.ReturnsDestination` | crunchdao/utils.py:16-52 | A call fails exactly when the probe's status raises; every other call returns `dest_path` and leaves a file there |
| `Download.CompleteFileIsKept` | crunchdao/utils.py:30-33 | A local file of the announced size is returned at once: unchanged, with no second request |
| `Download.ShorterFileIsResumed` | crunchdao/utils.py:24-29 | A shorter file leads to a second request with `Range: bytes=<size>-`. The result is the old bytes followed by that response's chunks in order, whatever that response's status. It is that response's body that is streamed |
| `Download.LongerFileIsReplaced` | crunchdao/utils.py:34-38 | A longer file is deleted; the result is exactly the probe's body, which is streamed again |
| `Download.AbsentFileIsDownloaded` | crunchdao/utils.py:39-41 | With no local file, the result is exactly the probe's body |
| `Download.MissingLengthCountsAsZero` | crunchdao/utils.py:19 | Without `content-length` an empty local file counts as complete and any non-empty file is replaced by the body |
| `Download.KeptBytesAreNeverAltered` | crunchdao/utils.py:48-50 | Writing only appends: a local file that is not discarded is a prefix of the final file |
| `Download.ResumeMatchesFreshDownload` | crunchdao/utils.py:21-50 | Against a server that honours ranges, the fresh, resumed and restarted paths all end with the resource's exact bytes |
| `Download.DownloadIsIdempotent` | crunchdao/utils.py:30-33 | For a server that announces the exact body length in `content-length` and honours ranges (`Serves`), and whatever the file was before: the first call returns `dest` and leaves a file of the announced size, so a second call takes the complete path. It only probes, streams no body and leaves the file as it is. When the prior file was absent, a prefix of the resource or longer than it, the file holds exactly the resource |
| `Download.ConcatSnoc` | crunchdao/utils.py:49-50 | Appending one more chunk extends the written bytes by exactly that chunk |
| `Download.Disk.WriteAll` | crunchdao/utils.py:48-50 | Opening in append mode creates a missing file; the file then ends with the chunks' bytes in order; no other file changes |
| `Download.Expected` | crunchdao/utils.py:14-52 | Definition (no contract): the result, final destination file and requests of one call, given the server's answers and the previous file, plus the request whose body is streamed (none on the failing and complete paths). Probe, raise on 4xx/5xx, decide, optionally resume, append the body |
| `Download.DownloadFile` | crunchdao/utils.py:11-52 | The return value, the destination file, the requests sent and the body read are those of `Expected`; every other path is untouched |
| `Decimal.ParseIntToString` | crunchdao/api.py:187 | Printing an integer as an f-string does and reading it back gives the integer |
| `Decimal.IntToStringInjective` | crunchdao/api.py:253 | Distinct integers print as distinct strings |
| `Json.Lookup` | crunchdao/api.py:255-256 | `d[k]` finds a value exactly when `k` is a key of `d` |
| `Json.Put` | crunchdao/api.py:57 | After `d[k] = v`, `d[k]` is `v` |
| `Json.PutOther` | crunchdao/api.py:57 | `d[k] = v` leaves every other key's value alone |
| `Json.PutKeys` | crunchdao/api.py:255-256 | `d[k] = v` keeps the key order, and a new key comes last |
| `Json.PutKeepsDistinct` | crunchdao/api.py:255-256 | Assignment keeps a dict's keys distinct |
| `Json.Delete` | crunchdao/api.py:258-259 | After `del d[k]` the key is gone |
| `Json.DeleteOther` | crunchdao/api.py:258-259 | `del d[k]` leaves every other key's value alone |
| `Json.DeleteAt` | crunchdao/api.py:258-259 | On a dict with distinct keys, `del d[k]` removes exactly the member holding `k`; the others keep their order |
| `Json.DeleteKeepsDistinct` | crunchdao/api.py:258-259 | Deletion keeps a dict's keys distinct |
| `Json.RenameKeys` | crunchdao/api.py:261-262 | Definition (no contract): the comprehension `{rename(key): val for key, val in data.items()}`, members in order, a later member overwriting an earlier one with the same renamed key |
| `Json.RenameKeysLookup` | crunchdao/api.py:261-262 | After the key-renaming comprehension, each renamed key holds the value of the last member renamed to it; no other key is present |
| `Json.RenameKeysInjective` | crunchdao/api.py:261-262 | When no two keys are renamed alike, each key's value moves unchanged to its renamed key |
| `Api.Client.constructor` | crunchdao/api.py:21-31 | Stores the given key when there is one, and otherwise the environment value, which may itself be absent |
| `Api.QueryParams` | crunchdao/api.py:52-57 | The guard fails, with `ValueError`, exactly when authorization is asked for without a key. With authorization `apiKey` is the key. Without it, the parameters are passed through unchanged |
| `Api.AuthorizationKeepsOtherParams` | crunchdao/api.py:57 | Adding the key changes no other parameter |
| `Api.Client.RawRequest` | crunchdao/api.py:52-60 | A refused request sends nothing and leaves the caller's dict alone. Otherwise it sends one GET with `QueryParams`' parameters and returns the decoded body. A missing dict is sent as `{}`. The caller's own dict now holds the key (mutation in place) |
| `Api.UserSegment` | crunchdao/api.py:181-187 | Definition (no contract): `@me` when no user id is given, otherwise the id as `str()` prints it |
| `Api.SubmissionsUrl` | crunchdao/api.py:187 | Definition (no contract): `f"{BASE_URL}/v2/users/{user_id}/submissions"` |
| `Api.SubmissionsUrlNamesUser` | crunchdao/api.py:181-187 | `@me` and each user id give distinct submission URLs |
| `Api.SubmissionsParams` | crunchdao/api.py:188-190 | The only possible parameter is `round`, present exactly when `round_num` is truthy (so 0 is left out) and equal to it |
| `Api.SubmissionsNeedKeyOnlyForSelf` | crunchdao/api.py:181-185 | The request is refused exactly when no user id and no key are given; with a user id the parameters go out unchanged |
| `Api.Client.Submissions` | crunchdao/api.py:181-191 | Sends one GET to the user's (by default `@me`) URL, with authorization only for `@me`, or raises before sending |
| `Api.RoundSegment` | crunchdao/api.py:251-253 | Definition (no contract): `@latest` when no round is given, otherwise the round as `str()` prints it |
| `Api.DatasetConfigUrl` | crunchdao/api.py:253 | Definition (no contract): `f"{BASE_URL}/v2/rounds/{round_num}/dataset-config"` |
| `Api.DatasetConfigUrlNamesRound` | crunchdao/api.py:251-253 | `@latest` and each round number give distinct dataset-config URLs |
| `Api.DeleteEachStops` | crunchdao/api.py:258-259 | Once a `del` in the loop raises, the later items are not reached |
| `Api.Hoist` | crunchdao/api.py:255-256 | Definition (no contract): `data["dataset_id"] = id` then `data["dataset_name"] = name`, with the values already read from `data["dataset"]` |
| `Api.DeleteEach` | crunchdao/api.py:258-259 | Definition (no contract): the `for item in [...]: del data[item]` loop, which raises `KeyError(item)` at the first missing item |
| `Api.Reshape` | crunchdao/api.py:255-262 | Definition (no contract): `data["dataset"]["id"]`/`["name"]` (raising `TypeError` on a non-dict, `KeyError` on a missing key), the two assignments, the `del` loop, then the key-renaming comprehension |
| `Api.DeleteIdAndDataset` | crunchdao/api.py:258-259 | Deleting `id` and then `dataset` raises `KeyError('id')` exactly when the top-level `id` is missing |
| `Api.ReshapeFailsOnlyOnMissingMember` | crunchdao/api.py:255-259 | The reshaping succeeds exactly when the body is a dict with an `id` and a `dataset` dict that has `id` and `name` |
| `Api.KeptMembers` | crunchdao/api.py:255-259 | After hoisting and deleting, `dataset_id` and `dataset_name` hold the dataset's id and name. `id` and `dataset` are gone, every other key is unchanged, and the keys stay distinct |
| `Api.ReshapeContents` | crunchdao/api.py:255-262 | With no two keys renamed alike, the result holds the dataset's id and name under the renamed `dataset_id`/`dataset_name`. Nothing is under the renamed `id`/`dataset`, and every other key keeps its value under its renamed name |
| `Api.ReshapeConfig` | crunchdao/api.py:255-263 | The step-by-step reshaping (two assignments, the `del` loop, the comprehension) computes `Reshape` |
| `Api.RenameAll` | crunchdao/api.py:261-262 | The comprehension loop computes `RenameKeys` |
| `Api.Client.DatasetConfig` | crunchdao/api.py:251-263 | Sends one GET without authorization or parameters to the round's URL (`@latest` by default) and returns the body reshaped by `Reshape` |
| `Api.Join` | crunchdao/api.py:79 | Definition (no contract): `os.path.join(directory, filename)` for a relative file name, POSIX style: no separator is added after an empty directory or one ending in `/` |
| `Api.DataPaths` | crunchdao/api.py:76-81 | Definition (no contract): the list the loop builds, `os.path.join(directory, filename)` for the three file names in order |
| `Api.DataDirectory` | crunchdao/api.py:62 | Definition (no contract): the `directory` argument, `"."` when not given |
| `Api.DefaultDataPaths` | crunchdao/api.py:62-81 | With the default directory the paths are `./X_train.csv`, `./y_train.csv` and `./X_test.csv`, as the docstring's example shows |
| `Api.DataPathsDistinct` | crunchdao/api.py:76-81 | Exactly three paths, `directory` joined with `X_train.csv`, `y_train.csv` and `X_test.csv` in that order, pairwise distinct |
| `Api.Client.DownloadData` | crunchdao/api.py:76-81 | For the given directory or the default `"."`: on success it returns those three paths and each file exists. A failure is an `HTTPError` whose status raises (4xx/5xx). No other file changes |
| `Api.ClassifyUpload` | crunchdao/api.py:99-133 | Definition (no contract): the `if`/`elif` chain on `response.status_code`, one outcome per branch, in the code's order |
| `Api.ClassifyUploadRoundTrip` | crunchdao/api.py:99-133 | Each status code maps to exactly one outcome, from which it can be read back. 200, 423, 422, 404, 400, 401, 409 and 429 each have their own category; every other code is "unexpected" |
| `Api.UploadStatusRoundTrip` | crunchdao/api.py:99-133 | Every reportable outcome comes from exactly one status code |
| `Api.Client.Upload` | crunchdao/api.py:94-133 | Sends one POST of the CSV bytes (file name `x`) and the key to `/v2/submissions`; the reported outcome is that status's category |

## Behaviour of the code worth knowing

- A missing `content-length` counts as size 0 (crunchdao/utils.py:19). An
  existing empty file is therefore reported complete, and any non-empty
  file is deleted and downloaded again
  (`Download.MissingLengthCountsAsZero`).
- The resumed request is not status-checked (crunchdao/utils.py:28-29).
  Whatever body it carries, even that of an error response or of a full
  `200` reply from a server that ignores `Range`, is appended to the
  partial file. `Download.ShorterFileIsResumed` states this.
  `Download.ResumeMatchesFreshDownload` holds only for servers that honour
  ranges.
- The complete path needs `content-length` to count the same bytes that
  end up in the file. The `requests` library documents that
  `iter_content` decodes a gzip or deflate `Content-Encoding`, while
  `content-length` counts the encoded bytes. For such a response the local
  file is larger than the announced size, so every call deletes it and
  streams the whole body again (`Download.LongerFileIsReplaced`). This is a
  reading of the code and the library's documentation.
  `Download.DownloadIsIdempotent` assumes a server whose announced length
  is the length of the body.

## Left out

- The progress bar (`tqdm`) and all logging: cosmetic, with no effect on files or results. The code that prints the upload messages is represented only by the outcome category it picks.
- The pandas part of `submissions` (crunchdao/api.py:193-216) and all of `last_crunch` (crunchdao/api.py:265-277): they are tabular operations in a foreign library. `Api.Client.Submissions` returns the decoded body instead of a DataFrame.
- The `__main__` block (crunchdao/api.py:280-282) and the `os.getenv` lookup: an entry point and I/O. The environment value is a constructor argument.
- The HTTP library: `verify=False`, redirects, streaming, connection failures and exceptions while streaming. A connection error would leave a partially written file, and the model does not represent it.
- `Download.Response`: the `content-length` header is taken as an already-parsed integer, so the `ValueError` that `int()` raises on a malformed header is not modelled.
- `Api.Transport`: `response.json()` on a body that is not JSON (which raises) is not modelled. The transport answers each GET with a decoded value. JSON numbers other than integers are not modelled either.
- `Api.Client.Upload`: `to_csv().encode('ascii')` is an input. Its `UnicodeEncodeError` on non-ASCII text is not modelled.
- `Api.ReshapeContents`: it states the result key by key only when `rename` sends no two relevant keys to the same string. The general case, where the last colliding member wins, is stated by `Json.RenameKeysLookup`.
- `Api.Client.DownloadData`: it states the returned paths, that the files exist and that nothing else changes. The contents of each file are stated per call by `Download.DownloadFile`.
- Concurrent writers to one destination path: the code is sequential.
- `Download.Disk`: the file system is a map from path strings to byte contents. Two strings that name one file are two entries (`./X_train.csv` and `X_train.csv`, symbolic and hard links). So "every other path is untouched" in `Download.DownloadFile` and `Api.Client.DownloadData` holds per path string, not per file. A directory at the destination is not modelled either; there `os.path.exists` is true, `os.stat` gives the directory's size and `open(..., "ab")` raises `IsADirectoryError`. A destination whose parent directory does not exist is not modelled: the code finds no file, takes the fresh path and then `open(dest_path, "ab")` raises `FileNotFoundError` after the probe was sent (for example `download_data("data")` without a `./data` directory). The empty path `""` fails the same way. The model's `Download.Disk.WriteAll` creates any path, so there `Download.DownloadFile` returns `dest` and `Api.Client.DownloadData` reports three existing files. Permission and disk-full errors are not modelled.
- `Api.Join`: only POSIX `posixpath.join` for a relative file name is modelled; Windows paths (`ntpath.join`, drive letters, `\\` separators) are not.
- `Json.Value`: an `Obj` may hold the same key twice, which `json.loads` never returns (it keeps the last value), and `Json.Lookup` reads the first occurrence. The transport's decoded answers are not constrained to distinct keys. `Api.ReshapeContents` and `Api.KeptMembers` require `Json.DistinctKeys` of the body they describe, and `Api.ReshapeFailsOnlyOnMissingMember` holds for any body.

=== FILE: api.dfy ===
/**
  The request shaping and response reshaping of the `Client` class in
  `crunchdao/api.py`: key selection, the authorization guard, request
  URLs and parameters, the dataset-config reshaping, the data-file paths
  and the classification of upload status codes.
*/
module Api {
  import opened Wrappers
  import opened Json
  import Decimal
  import Download

  const BaseUrl: string := "https://api.tournament.crunchdao.com"
  const DataUrl: string := "https://tournament.crunchdao.com/data/"
  const DataFileNames: seq<string> := ["X_train.csv", "y_train.csv", "X_test.csv"]

  /** `ValueError` for a missing key, `KeyError`, and `TypeError` for indexing a non-dict. */
  datatype ApiError = MissingApiKey | KeyError(key: string) | TypeError

  /** A call the client makes: a GET with query parameters, or the multipart POST of a submission. */
  datatype Call =
    | Get(url: string, params: Members)
    | Post(url: string, fileName: string, content: seq<Download.byte>, apiKey: Option<string>)

  /** The HTTP transport: a decoded JSON body per GET, a status code per POST, and the calls made so far. */
  class Transport {
    const json: Call -> Value
    const status: Call -> int
    var sent: seq<Call>

    constructor (json: Call -> Value, status: Call -> int)
      ensures this.json == json && this.status == status && sent == []
    {
      this.json := json;
      this.status := status;
      sent := [];
    }

    /** `requests.get(url, params=params).json()`. */
    method Get(url: string, params: Members) returns (body: Value)
      modifies this
      ensures sent == old(sent) + [Call.Get(url, params)] && body == json(Call.Get(url, params))
    {
      body := json(Call.Get(url, params));
      sent := sent + [Call.Get(url, params)];
    }

    /** `requests.post(url, files={"file": (name, content)}, data={"apiKey": key}).status_code`. */
    method Post(url: string, fileName: string, content: seq<Download.byte>, apiKey: Option<string>)
      returns (code: int)
      modifies this
      ensures sent == old(sent) + [Call.Post(url, fileName, content, apiKey)]
      ensures code == status(Call.Post(url, fileName, content, apiKey))
    {
      code := status(Call.Post(url, fileName, content, apiKey));
      sent := sent + [Call.Post(url, fileName, content, apiKey)];
    }
  }

  /** A Python dict object that a caller and a callee can share. */
  class Dict {
    var members: Members

    constructor ()
      ensures members == []
    {
      members := [];
    }

    /** `d[k] = v`. */
    method Set(k: string, v: Value)
      modifies this
      ensures members == Put(old(members), k, v)
    {
      members := Put(members, k, v);
    }
  }

  /**
    The parameters `raw_request` sends given the caller's parameters: the
    guard fails exactly when authorization is asked for without a key; with
    authorization `apiKey` is set to the key and every other parameter is
    kept; without it the parameters go out as given.
  */
  function QueryParams(given: Members, authorization: bool, apikey: Option<string>): (r: Result<Members, ApiError>)
    ensures r.Failure? <==> authorization && apikey.None?
    ensures r.Failure? ==> r.error == MissingApiKey
    ensures r.Success? && authorization ==> Lookup(r.value, "apiKey") == Some(Str(apikey.value))
    ensures !authorization ==> r == Success(given)
  {
    if !authorization then Success(given)
    else if apikey.None? then Failure(MissingApiKey)
    else Success(Put(given, "apiKey", Str(apikey.value)))
  }

  /** With authorization, every parameter other than `apiKey` goes out as the caller gave it. */
  lemma AuthorizationKeepsOtherParams(given: Members, apikey: string, j: string)
    requires j != "apiKey"
    ensures Lookup(QueryParams(given, true, Some(apikey)).value, j) == Lookup(given, j)
  {
    PutOther(given, "apiKey", Str(apikey), j);
  }

  /** The path segment naming the user whose submissions are asked for. */
  function UserSegment(userId: Option<int>): string {
    match userId
    case None => "@me"
    case Some(id) => Decimal.IntToString(id)
  }

  /** `f"{BASE_URL}/v2/users/{user_id}/submissions"`, with `@me` for no user. */
  function SubmissionsUrl(userId: Option<int>): string {
    BaseUrl + "/v2/users/" + UserSegment(userId) + "/submissions"
  }

  /** A string framed by a fixed prefix and suffix determines what lies between. */
  lemma Unframe(prefix: string, x: string, y: string, suffix: string)
    requires prefix + x + suffix == prefix + y + suffix
    ensures x == y
  {
    var s := prefix + x + suffix;
    assert |x| == |y|;
    assert s[|prefix|..|prefix| + |x|] == x;
    assert (prefix + y + suffix)[|prefix|..|prefix| + |y|] == y;
  }

  /** The segments for distinct users, and for the caller themself, differ. */
  lemma SegmentNamesId(a: Option<int>, b: Option<int>)
    requires UserSegment(a) == UserSegment(b)
    ensures a == b
  {
    assert UserSegment(a)[0] == '@' <==> a.None?;
    assert UserSegment(b)[0] == '@' <==> b.None?;
    if a.Some? && b.Some? {
      Decimal.IntToStringInjective(a.value, b.value);
    }
  }

  /** Distinct users, and the caller themself, are asked for at distinct URLs. */
  lemma SubmissionsUrlNamesUser(a: Option<int>, b: Option<int>)
    ensures SubmissionsUrl(a) == SubmissionsUrl(b) ==> a == b
  {
    if SubmissionsUrl(a) == SubmissionsUrl(b) {
      Unframe(BaseUrl + "/v2/users/", UserSegment(a), UserSegment(b), "/submissions");
      SegmentNamesId(a, b);
    }
  }

  /** `params = {}; if round_num: params["round"] = round_num`: the round is sent only when it is truthy. */
  function SubmissionsParams(roundNum: Option<int>): (p: Members)
    ensures forall k :: Lookup(p, k).Some? <==> k == "round" && roundNum.Some? && roundNum.value != 0
    ensures roundNum.Some? && roundNum.value != 0 ==> Lookup(p, "round") == Some(Int(roundNum.value))
  {
    if roundNum.Some? && roundNum.value != 0 then Put([], "round", Int(roundNum.value)) else []
  }

  /** Only the caller's own submissions need a key, and only then can the request be refused. */
  lemma SubmissionsNeedKeyOnlyForSelf(userId: Option<int>, roundNum: Option<int>, apikey: Option<string>)
    ensures QueryParams(SubmissionsParams(roundNum), userId.None?, apikey).Failure?
            <==> userId.None? && apikey.None?
    ensures userId.Some? ==> QueryParams(SubmissionsParams(roundNum), userId.None?, apikey)
                             == Success(SubmissionsParams(roundNum))
  {
  }

  /** The path segment naming a round: `@latest` for none. */
  function RoundSegment(roundNum: Option<int>): string {
    match roundNum
    case None => "@latest"
    case Some(n) => Decimal.IntToString(n)
  }

  /** `f"{BASE_URL}/v2/rounds/{round_num}/dataset-config"`. */
  function DatasetConfigUrl(roundNum: Option<int>): string {
    BaseUrl + "/v2/rounds/" + RoundSegment(roundNum) + "/dataset-config"
  }

  /** The segments for distinct rounds, and for the latest round, differ. */
  lemma SegmentNamesRound(a: Option<int>, b: Option<int>)
    requires RoundSegment(a) == RoundSegment(b)
    ensures a == b
  {
    assert RoundSegment(a)[0] == '@' <==> a.None?;
    assert RoundSegment(b)[0] == '@' <==> b.None?;
    if a.Some? && b.Some? {
      Decimal.IntToStringInjective(a.value, b.value);
    }
  }

  /** Distinct rounds, and the latest round, are asked for at distinct URLs. */
  lemma DatasetConfigUrlNamesRound(a: Option<int>, b: Option<int>)
    ensures DatasetConfigUrl(a) == DatasetConfigUrl(b) ==> a == b
  {
    if DatasetConfigUrl(a) == DatasetConfigUrl(b) {
      Unframe(BaseUrl + "/v2/rounds/", RoundSegment(a), RoundSegment(b), "/dataset-config");
      SegmentNamesRound(a, b);
    }
  }

  /** `for item in items: del data[item]`: the first missing item raises `KeyError`. */
  function DeleteEach(m: Members, items: seq<string>): Result<Members, ApiError> {
    if items == [] then Success(m)
    else
      match DeleteEach(m, items[..|items| - 1])
      case Failure(e) => Failure(e)
      case Success(m') =>
        var item := items[|items| - 1];
        if Lookup(m', item).None? then Failure(KeyError(item)) else Success(Delete(m', item))
  }

  /** Once a `del` raises, the later items are not reached. */
  lemma {:induction false} DeleteEachStops(m: Members, items: seq<string>, i: nat)
    requires i < |items| && DeleteEach(m, items[..i + 1]).Failure?
    ensures DeleteEach(m, items) == DeleteEach(m, items[..i + 1])
  {
    if i + 1 < |items| {
      assert items[..|items| - 1][..i + 1] == items[..i + 1];
      DeleteEachStops(m, items[..|items| - 1], i);
    } else {
      assert items[..i + 1] == items;
    }
  }

  /** `data` has what the reshaping reads: a top-level `id`, and a `dataset` dict with `id` and `name`. */
  predicate HasDatasetConfigShape(data: Value) {
    data.Obj? && Lookup(data.members, "id").Some? &&
    match Lookup(data.members, "dataset")
    case Some(Obj(ds)) => Lookup(ds, "id").Some? && Lookup(ds, "name").Some?
    case _ => false
  }

  /** `data["dataset_id"] = ...["id"]; data["dataset_name"] = ...["name"]`. */
  function Hoist(m: Members, id: Value, name: Value): Members {
    Put(Put(m, "dataset_id", id), "dataset_name", name)
  }

  /**
    The body of `dataset_config` after the request: copy `dataset.id` and
    `dataset.name` up, delete `id` and `dataset`, rename every key; a
    `KeyError` or `TypeError` where Python raises one.
  */
  function Reshape(rename: string -> string, data: Value): Result<Members, ApiError> {
    if !data.Obj? then Failure(TypeError)
    else
      match Lookup(data.members, "dataset")
      case None => Failure(KeyError("dataset"))
      case Some(ds) =>
        if !ds.Obj? then Failure(TypeError)
        else
          match Lookup(ds.members, "id")
          case None => Failure(KeyError("id"))
          case Some(id) =>
            match Lookup(ds.members, "name")
            case None => Failure(KeyError("name"))
            case Some(name) =>
              match DeleteEach(Hoist(data.members, id, name), ["id", "dataset"])
              case Failure(e) => Failure(e)
              case Success(kept) => Success(RenameKeys(rename, kept))
  }

  /** Deleting `id` then `dataset` from the hoisted dict succeeds exactly when `data` had an `id`. */
  lemma DeleteIdAndDataset(m: Members, ds: Members, id: Value, name: Value)
    requires Lookup(m, "dataset") == Some(Obj(ds))
    ensures DeleteEach(Hoist(m, id, name), ["id", "dataset"])
            == if Lookup(m, "id").None? then Failure(KeyError("id"))
               else Success(Delete(Delete(Hoist(m, id, name), "id"), "dataset"))
  {
    var m1 := Put(m, "dataset_id", id);
    var h := Put(m1, "dataset_name", name);
    PutOther(m, "dataset_id", id, "id");
    PutOther(m1, "dataset_name", name, "id");
    PutOther(m, "dataset_id", id, "dataset");
    PutOther(m1, "dataset_name", name, "dataset");
    DeleteOther(h, "id", "dataset");
    assert ["id", "dataset"][..1] == ["id"];
    assert ["id"][..0] == [];
    assert DeleteEach(h, ["id"]) == if Lookup(h, "id").None? then Failure(KeyError("id")) else Success(Delete(h, "id"));
  }

  /** The reshaping fails exactly when one of the members it reads is missing or is not a dict. */
  lemma ReshapeFailsOnlyOnMissingMember(rename: string -> string, data: Value)
    ensures Reshape(rename, data).Success? <==> HasDatasetConfigShape(data)
  {
    if data.Obj? {
      var m := data.members;
      match Lookup(m, "dataset")
      case None =>
      case Some(ds) =>
        if ds.Obj? && Lookup(ds.members, "id").Some? && Lookup(ds.members, "name").Some? {
          DeleteIdAndDataset(m, ds.members, Lookup(ds.members, "id").value, Lookup(ds.members, "name").value);
        }
    }
  }

  /** The members left after hoisting and deleting: the hoisted pair, and every other key unchanged. */
  lemma KeptMembers(m: Members, id: Value, name: Value)
    requires DistinctKeys(m)
    ensures var kept := Delete(Delete(Hoist(m, id, name), "id"), "dataset");
            DistinctKeys(kept) &&
            (forall j :: j in Keys(kept) ==> j in Keys(m) + ["dataset_id", "dataset_name"]) &&
            Lookup(kept, "dataset_id") == Some(id) && Lookup(kept, "dataset_name") == Some(name) &&
            Lookup(kept, "id") == None && Lookup(kept, "dataset") == None &&
            forall k :: k !in ["id", "dataset", "dataset_id", "dataset_name"] ==> Lookup(kept, k) == Lookup(m, k)
  {
    var m1 := Put(m, "dataset_id", id);
    var m2 := Put(m1, "dataset_name", name);
    var m3 := Delete(m2, "id");
    var kept := Delete(m3, "dataset");
    PutKeepsDistinct(m, "dataset_id", id);
    PutKeepsDistinct(m1, "dataset_name", name);
    DeleteKeepsDistinct(m2, "id");
    DeleteKeepsDistinct(m3, "dataset");
    forall k | k !in ["id", "dataset", "dataset_id", "dataset_name"]
      ensures Lookup(kept, k) == Lookup(m, k)
    {
      PutOther(m, "dataset_id", id, k);
      PutOther(m1, "dataset_name", name, k);
      DeleteOther(m2, "id", k);
      DeleteOther(m3, "dataset", k);
    }
    PutOther(m1, "dataset_name", name, "dataset_id");
    DeleteOther(m2, "id", "dataset_id");
    DeleteOther(m3, "dataset", "dataset_id");
    DeleteOther(m2, "id", "dataset_name");
    DeleteOther(m3, "dataset", "dataset_name");
    DeleteOther(m3, "dataset", "id");
    forall j | j in Keys(kept) ensures j in Keys(m) + ["dataset_id", "dataset_name"] {
      if j !in ["id", "dataset", "dataset_id", "dataset_name"] {
        assert Lookup(m, j).Some?;
      }
    }
  }

  /**
    What a well-formed dataset config becomes, when no two of its keys (nor
    `dataset_id`, `dataset_name`) are renamed alike: the dataset's id and name
    under the renamed `dataset_id` and `dataset_name`, nothing under the
    renamed `id` or `dataset`, and every other key's value under its renamed key.
  */
  lemma ReshapeContents(rename: string -> string, m: Members, ds: Members, id: Value, name: Value)
    requires DistinctKeys(m)
    requires Lookup(m, "id").Some? && Lookup(m, "dataset") == Some(Obj(ds))
    requires Lookup(ds, "id") == Some(id) && Lookup(ds, "name") == Some(name)
    requires InjectiveOn(rename, Keys(m) + ["dataset_id", "dataset_name"])
    ensures var r := Reshape(rename, Obj(m));
            r.Success? &&
            Lookup(r.value, rename("dataset_id")) == Some(id) &&
            Lookup(r.value, rename("dataset_name")) == Some(name) &&
            Lookup(r.value, rename("id")) == None &&
            Lookup(r.value, rename("dataset")) == None &&
            forall k :: k in Keys(m) && k !in ["id", "dataset", "dataset_id", "dataset_name"] ==>
              Lookup(r.value, rename(k)) == Lookup(m, k)
  {
    var kept := Delete(Delete(Hoist(m, id, name), "id"), "dataset");
    DeleteIdAndDataset(m, ds, id, name);
    assert Reshape(rename, Obj(m)) == Success(RenameKeys(rename, kept));
    KeptMembers(m, id, name);
    var dom := Keys(m) + ["dataset_id", "dataset_name"];
    forall k | k in dom
      ensures Lookup(RenameKeys(rename, kept), rename(k)) == Lookup(kept, k)
    {
      assert InjectiveOn(rename, Keys(kept) + [k]);
      RenameKeysInjective(rename, kept, k);
    }
  }

  /**
    The reshaping in `dataset_config`, step by step: the two hoisting
    assignments, the `del` loop and the dict comprehension. Its result is
    `Reshape`'s.
  */
  method ReshapeConfig(rename: string -> string, data: Value) returns (r: Result<Members, ApiError>)
    ensures r == Reshape(rename, data)
  {
    if !data.Obj? {
      return Failure(TypeError);
    }
    var m := data.members;
    var dataset := Lookup(m, "dataset");
    if dataset.None? {
      return Failure(KeyError("dataset"));
    }
    if !dataset.value.Obj? {
      return Failure(TypeError);
    }
    var id := Lookup(dataset.value.members, "id");
    if id.None? {
      return Failure(KeyError("id"));
    }
    m := Put(m, "dataset_id", id.value);
    PutOther(data.members, "dataset_id", id.value, "dataset");
    dataset := Lookup(m, "dataset");
    var name := Lookup(dataset.value.members, "name");
    if name.None? {
      return Failure(KeyError("name"));
    }
    m := Put(m, "dataset_name", name.value);
    ghost var hoisted := m;
    assert hoisted == Hoist(data.members, id.value, name.value);
    var items := ["id", "dataset"];
    for i := 0 to |items|
      invariant DeleteEach(hoisted, items[..i]) == Success(m)
    {
      assert items[..i + 1][..i] == items[..i];
      if Lookup(m, items[i]).None? {
        DeleteEachStops(hoisted, items, i);
        return Failure(KeyError(items[i]));
      }
      m := Delete(m, items[i]);
    }
    assert items[..|items|] == items;
    var cleaned := RenameAll(rename, m);
    return Success(cleaned);
  }

  /** The dict comprehension `{rename(key): val for key, val in data.items()}`, member by member. */
  method RenameAll(rename: string -> string, m: Members) returns (cleaned: Members)
    ensures cleaned == RenameKeys(rename, m)
  {
    cleaned := [];
    for i := 0 to |m|
      invariant cleaned == RenameKeys(rename, m[..i])
    {
      assert m[..i + 1][..i] == m[..i];
      cleaned := Put(cleaned, rename(m[i].0), m[i].1);
    }
    assert m[..|m|] == m;
  }

  /** The three files `download_data` fetches, in order, joined to `directory` by `os.path.join`. */
  function DataPaths(directory: string): seq<string> {
    [Join(directory, DataFileNames[0]), Join(directory, DataFileNames[1]), Join(directory, DataFileNames[2])]
  }

  /** `os.path.join(directory, name)` for a relative `name`. */
  function Join(directory: string, name: string): string {
    if directory == [] || directory[|directory| - 1] == '/' then directory + name else directory + "/" + name
  }

  /** The directory `download_data` writes to: the given one, or `"."` by default. */
  function DataDirectory(directory: Option<string>): string {
    if directory.None? then "." else directory.value
  }

  /** By default the three files land in the working directory, under `./`. */
  lemma DefaultDataPaths()
    ensures DataPaths(DataDirectory(None)) == ["./X_train.csv", "./y_train.csv", "./X_test.csv"]
  {
    assert "." + "/" + "X_train.csv" == "./X_train.csv";
    assert "." + "/" + "y_train.csv" == "./y_train.csv";
    assert "." + "/" + "X_test.csv" == "./X_test.csv";
  }

  /** The three data paths are distinct and each ends in its file name. */
  lemma DataPathsDistinct(directory: string)
    ensures |DataPaths(directory)| == 3
    ensures forall i :: 0 <= i < 3 ==> DataPaths(directory)[i] == Join(directory, DataFileNames[i])
    ensures forall i, j :: 0 <= i < j < 3 ==> DataPaths(directory)[i] != DataPaths(directory)[j]
  {
    var prefix := if directory == [] || directory[|directory| - 1] == '/' then directory else directory + "/";
    forall i, j | 0 <= i < j < 3 ensures DataPaths(directory)[i] != DataPaths(directory)[j] {
      var a, b := DataFileNames[i], DataFileNames[j];
      assert Join(directory, a) == prefix + a && Join(directory, b) == prefix + b;
      assert (prefix + a)[|prefix|..] == a;
      assert (prefix + b)[|prefix|..] == b;
    }
  }

  /** The outcome `upload` reports for a status code. */
  datatype UploadOutcome =
    | Submitted
    | SubmissionsClosed
    | ApiKeyMissingOrEmpty
    | UnknownApiKey
    | EmptyFile
    | EmailNotVerified
    | DuplicateSubmission
    | TooManySubmissions
    | Unexpected(status: int)

  /** The status codes `upload` knows. */
  const KnownUploadStatuses: set<int> := {200, 423, 422, 404, 400, 401, 409, 429}

  /** The `if`/`elif` chain of `upload` on `response.status_code`. */
  function ClassifyUpload(status: int): UploadOutcome {
    if status == 200 then Submitted
    else if status == 423 then SubmissionsClosed
    else if status == 422 then ApiKeyMissingOrEmpty
    else if status == 404 then UnknownApiKey
    else if status == 400 then EmptyFile
    else if status == 401 then EmailNotVerified
    else if status == 409 then DuplicateSubmission
    else if status == 429 then TooManySubmissions
    else Unexpected(status)
  }

  /** The status code that leads to an outcome. */
  function UploadStatus(o: UploadOutcome): int {
    match o
    case Submitted => 200
    case SubmissionsClosed => 423
    case ApiKeyMissingOrEmpty => 422
    case UnknownApiKey => 404
    case EmptyFile => 400
    case EmailNotVerified => 401
    case DuplicateSubmission => 409
    case TooManySubmissions => 429
    case Unexpected(s) => s
  }

  /** An outcome `upload` can report: `Unexpected` only for a code it does not know. */
  predicate Reportable(o: UploadOutcome) {
    o.Unexpected? ==> o.status !in KnownUploadStatuses
  }

  /**
    Each status code leads to exactly one outcome and can be read back from
    it: known codes to their own category, every other code to `Unexpected`.
  */
  lemma ClassifyUploadRoundTrip(status: int)
    ensures Reportable(ClassifyUpload(status))
    ensures UploadStatus(ClassifyUpload(status)) == status
    ensures ClassifyUpload(status).Unexpected? <==> status !in KnownUploadStatuses
  {
  }

  /** Each reportable outcome comes from exactly the code `UploadStatus` gives. */
  lemma UploadStatusRoundTrip(o: UploadOutcome)
    requires Reportable(o)
    ensures ClassifyUpload(UploadStatus(o)) == o
  {
  }

  /** The client: the API key it sends, if any. */
  class Client {
    var apikey: Option<string>

    /** `Client(apikey)`: the given key, or else the value of the environment variable, which may be absent. */
    constructor (apikey: Option<string>, environment: Option<string>)
      ensures this.apikey == if apikey.Some? then apikey else environment
    {
      if apikey.None? {
        this.apikey := environment;
      } else {
        this.apikey := apikey;
      }
    }

    /**
      `raw_request(url, params, authorization)`: refused before anything is
      sent when authorization is asked for without a key; otherwise one GET
      with the parameters of `QueryParams`, which the caller's dict now holds.
    */
    method RawRequest(http: Transport, url: string, params: Dict?, authorization: bool)
      returns (r: Result<Value, ApiError>)
      modifies http, params
      ensures var q := QueryParams(if params == null then [] else old(params.members), authorization, apikey);
              match q
              case Failure(e) =>
                r == Failure(e) && http.sent == old(http.sent) &&
                (params != null ==> params.members == old(params.members))
              case Success(p) =>
                r == Success(http.json(Call.Get(url, p))) && http.sent == old(http.sent) + [Call.Get(url, p)] &&
                (params != null ==> params.members == p)
    {
      var p := params;
      if p == null {
        p := new Dict();
      }
      if authorization {
        if apikey.None? {
          return Failure(MissingApiKey);
        }
        p.Set("apiKey", Str(apikey.value));
      }
      var body := http.Get(url, p.members);
      return Success(body);
    }

    /** `download_data(directory)`: the three files in order; their paths on success; no other file touched. */
    method DownloadData(disk: Download.Disk, server: Download.Server, dir: Option<string>)
      returns (r: Result<seq<Download.Path>, Download.HttpError>)
      modifies disk, server
      ensures r.Success? ==> r.value == DataPaths(DataDirectory(dir))
      ensures r.Success? ==> forall p :: p in r.value ==> disk.Entry(p).Some?
      ensures r.Failure? ==> Download.RaisesForStatus(r.error.status)
      ensures forall p :: p !in DataPaths(DataDirectory(dir)) ==> disk.Entry(p) == old(disk.Entry(p))
    {
      var directory := DataDirectory(dir);
      DataPathsDistinct(directory);
      var paths: seq<Download.Path> := [];
      for i := 0 to 3
        invariant paths == DataPaths(directory)[..i]
        invariant forall p :: p in paths ==> disk.Entry(p).Some?
        invariant forall p :: p !in DataPaths(directory) ==> disk.Entry(p) == old(disk.Entry(p))
      {
        var filename := DataFileNames[i];
        var url := DataUrl + filename;
        ghost var before := disk.Entry(Join(directory, filename));
        var path := Download.DownloadFile(disk, server, url, Join(directory, filename));
        Download.ReturnsDestination(server.respond, url, Join(directory, filename), before);
        if path.Failure? {
          return Failure(path.error);
        }
        paths := paths + [path.value];
      }
      return Success(paths);
    }

    /** `upload(predictions)`: one POST of the CSV bytes and the key; the outcome is the status's category. */
    method Upload(http: Transport, csv: seq<Download.byte>) returns (o: UploadOutcome)
      modifies http
      ensures http.sent == old(http.sent) + [Call.Post(BaseUrl + "/v2/submissions", "x", csv, apikey)]
      ensures o == ClassifyUpload(http.status(Call.Post(BaseUrl + "/v2/submissions", "x", csv, apikey)))
    {
      var status := http.Post(BaseUrl + "/v2/submissions", "x", csv, apikey);
      o := ClassifyUpload(status);
    }

    /**
      `submissions(user_id, round_num)` up to the request: the caller's own
      submissions (`@me`, key required) when no user is given, the round
      parameter only when it is truthy; returns the decoded body.
    */
    method Submissions(http: Transport, userId: Option<int>, roundNum: Option<int>)
      returns (r: Result<Value, ApiError>)
      modifies http
      ensures var q := QueryParams(SubmissionsParams(roundNum), userId.None?, apikey);
              match q
              case Failure(e) => r == Failure(e) && http.sent == old(http.sent)
              case Success(p) =>
                r == Success(http.json(Call.Get(SubmissionsUrl(userId), p))) &&
                http.sent == old(http.sent) + [Call.Get(SubmissionsUrl(userId), p)]
    {
      var user: string;
      var authorization: bool;
      if userId.None? {
        user := "@me";
        authorization := true;
      } else {
        user := Decimal.IntToString(userId.value);
        authorization := false;
      }
      var url := BaseUrl + "/v2/users/" + user + "/submissions";
      var params := new Dict();
      if roundNum.Some? && roundNum.value != 0 {
        params.Set("round", Int(roundNum.value));
      }
      r := RawRequest(http, url, params, authorization);
    }

    /**
      `dataset_config(round_num)`: one GET without authorization to the
      round's (by default the latest round's) config URL; the result is the
      body reshaped by `Reshape`.
    */
    method DatasetConfig(http: Transport, rename: string -> string, roundNum: Option<int>)
      returns (r: Result<Members, ApiError>)
      modifies http
      ensures http.sent == old(http.sent) + [Call.Get(DatasetConfigUrl(roundNum), [])]
      ensures r == Reshape(rename, http.json(Call.Get(DatasetConfigUrl(roundNum), [])))
    {
      var round: string;
      if roundNum.None? {
        round := "@latest";
      } else {
        round := Decimal.IntToString(roundNum.value);
      }
      var url := BaseUrl + "/v2/rounds/" + round + "/dataset-config";
      var response := RawRequest(http, url, null, false);
      r := ReshapeConfig(rename, response.value);
    }
  }
}

=== FILE: decimal.dfy ===
/** Decimal rendering of integers, as Python's `str()` and f-strings print them. */
module Decimal {
  import opened Wrappers

  predicate IsDigit(c: char) {
    '0' <= c <= '9'
  }

  predicate AllDigits(s: string) {
    forall i :: 0 <= i < |s| ==> IsDigit(s[i])
  }

  function DigitChar(d: nat): (c: char)
    requires d < 10
    ensures IsDigit(c) && (c == '0' <==> d == 0)
  {
    (d + '0' as int) as char
  }

  function DigitValue(c: char): (d: nat)
    requires IsDigit(c)
    ensures d < 10 && DigitChar(d) == c
  {
    c as int - '0' as int
  }

  /** The decimal digits of `n`, most significant first, without leading zeros. */
  function NatToString(n: nat): (s: string)
    ensures |s| >= 1 && AllDigits(s)
    ensures s[0] == '0' <==> n == 0
  {
    if n < 10 then [DigitChar(n)] else NatToString(n / 10) + [DigitChar(n % 10)]
  }

  /** Python's `str(i)` for an `int`: a minus sign before the digits of a negative number. */
  function IntToString(i: int): (s: string)
    ensures |s| >= 1 && (s[0] == '-' || IsDigit(s[0]))
  {
    if i < 0 then "-" + NatToString(-i) else NatToString(i)
  }

  /** The number a non-empty string of decimal digits denotes. */
  function ParseNat(s: string): nat
    requires AllDigits(s)
  {
    if s == [] then 0 else 10 * ParseNat(s[..|s| - 1]) + DigitValue(s[|s| - 1])
  }

  /** Reads back an optional minus sign followed by at least one digit. */
  function ParseInt(s: string): Option<int> {
    if |s| >= 2 && s[0] == '-' && AllDigits(s[1..]) then Some(0 - ParseNat(s[1..]) as int)
    else if |s| >= 1 && AllDigits(s) then Some(ParseNat(s))
    else None
  }

  lemma {:induction false} ParseNatToString(n: nat)
    ensures ParseNat(NatToString(n)) == n
  {
    if n >= 10 {
      var s := NatToString(n / 10);
      var t := NatToString(n);
      ParseNatToString(n / 10);
      assert t == s + [DigitChar(n % 10)];
      assert t[..|t| - 1] == s;
    }
  }

  /** Printing an integer and reading it back gives the integer. */
  lemma ParseIntToString(i: int)
    ensures ParseInt(IntToString(i)) == Some(i)
  {
    var s := IntToString(i);
    if i < 0 {
      ParseNatToString(-i);
      assert s[1..] == NatToString(-i);
    } else {
      ParseNatToString(i);
      assert IsDigit(s[0]);
    }
  }

  /** Distinct integers print differently. */
  lemma IntToStringInjective(a: int, b: int)
    ensures IntToString(a) == IntToString(b) ==> a == b
  {
    ParseIntToString(a);
    ParseIntToString(b);
  }
}

=== FILE: download.dfy ===
/**
  The resumable file download of `crunchdao/utils.py`.

  One call probes the URL, compares the announced size with the size of the
  local file, and then either leaves the file alone, resumes it with an
  open-ended byte range (section 2.1 of RFC 7233, `bytes=N-`), or (re)starts
  it from byte 0, appending the body chunk by chunk.
*/
module Download {
  import opened Wrappers
  import Decimal

  newtype byte = x: int | 0 <= x < 256

  type Path = string
  type Url = string

  /** A GET as the transport receives it: the URL and the request headers. */
  datatype Request = Request(url: Url, headers: map<string, string>)

  /**
    A streamed response: the status code, the `content-length` header (absent,
    or the integer it holds) and the body as the chunks `iter_content` yields.
  */
  datatype Response = Response(status: int, contentLength: Option<int>, chunks: seq<seq<byte>>)

  /** The `HTTPError` that `raise_for_status` raises. */
  datatype HttpError = HttpError(status: int)

  /** The four paths the routine can take once it knows the announced size. */
  datatype Decision = Fresh | Partial(offset: nat) | Complete | Inconsistent

  /**
    What a call leaves behind: its return value or error, the destination
    file, the requests sent, and the request whose body was streamed into the
    file (None when no body was read).
  */
  datatype Effect = Effect(result: Result<Path, HttpError>, file: Option<seq<byte>>, requests: seq<Request>,
                           streamed: Option<Request>)

  /** The first request: a plain streaming GET. */
  function Probe(url: Url): Request {
    Request(url, map[])
  }

  /** The value of the `Range` header asking for every byte from `offset` on. */
  function RangeHeader(offset: nat): string {
    "bytes=" + Decimal.NatToString(offset) + "-"
  }

  /** The resuming request: the same URL with a `Range` header. */
  function Resume(url: Url, offset: nat): Request {
    Request(url, map["Range" := RangeHeader(offset)])
  }

  /**
    The first-byte position of a `bytes=N-` range, as a server reads it
    (section 2.1 of RFC 7233); None for any other header value.
  */
  function RangeStart(h: string): Option<nat> {
    if |h| >= 8 && h[..6] == "bytes=" && h[|h| - 1] == '-' && Decimal.AllDigits(h[6..|h| - 1])
    then Some(Decimal.ParseNat(h[6..|h| - 1]))
    else None
  }

  /** The range the resuming request asks for starts exactly at `offset`. */
  lemma RangeHeaderNamesOffset(offset: nat)
    ensures RangeStart(RangeHeader(offset)) == Some(offset)
  {
    var h := RangeHeader(offset);
    var digits := Decimal.NatToString(offset);
    assert h[..6] == "bytes=";
    assert h[6..|h| - 1] == digits;
    Decimal.ParseNatToString(offset);
  }

  /** `raise_for_status` raises on every 4xx and 5xx status. */
  predicate RaisesForStatus(status: int) {
    400 <= status < 600
  }

  /** `int(headers.get('content-length', 0))`. */
  function TotalSize(r: Response): int {
    match r.contentLength
    case None => 0
    case Some(n) => n
  }

  /** The bytes of a body, chunks in order. */
  function Concat(chunks: seq<seq<byte>>): seq<byte> {
    if chunks == [] then [] else chunks[0] + Concat(chunks[1..])
  }

  lemma {:induction false} ConcatSnoc(chunks: seq<seq<byte>>, c: seq<byte>)
    ensures Concat(chunks + [c]) == Concat(chunks) + c
  {
    if chunks != [] {
      assert (chunks + [c])[1..] == chunks[1..] + [c];
      ConcatSnoc(chunks[1..], c);
    }
  }

  /**
    The decision taken from the local file (if any) and the announced size.
    The four cases cover every input; a resume starts at the local size,
    which lies strictly before the announced size.
  */
  function Decide(existing: Option<seq<byte>>, total: int): (d: Decision)
    ensures d == Fresh <==> existing.None?
    ensures d.Partial? ==> existing.Some? && d.offset == |existing.value| < total
    ensures d == Complete ==> existing.Some? && |existing.value| == total
    ensures d == Inconsistent ==> existing.Some? && |existing.value| > total
  {
    match existing
    case None => Fresh
    case Some(f) =>
      if |f| < total then Partial(|f|)
      else if |f| == total then Complete
      else Inconsistent
  }

  /**
    The effect of `download_file(url, dest)` when the transport answers each
    request with `respond` and the destination holds `existing` beforehand.
  */
  function Expected(respond: Request -> Response, url: Url, dest: Path, existing: Option<seq<byte>>): Effect {
    var first := respond(Probe(url));
    if RaisesForStatus(first.status) then
      Effect(Failure(HttpError(first.status)), existing, [Probe(url)], None)
    else
      match Decide(existing, TotalSize(first))
      case Complete => Effect(Success(dest), existing, [Probe(url)], None)
      case Partial(n) =>
        Effect(Success(dest), Some(existing.value + Concat(respond(Resume(url, n)).chunks)),
               [Probe(url), Resume(url, n)], Some(Resume(url, n)))
      case Fresh => Effect(Success(dest), Some(Concat(first.chunks)), [Probe(url)], Some(Probe(url)))
      case Inconsistent => Effect(Success(dest), Some(Concat(first.chunks)), [Probe(url)], Some(Probe(url)))
  }

  /** A failing first request raises before the local file is looked at; nothing else is sent. */
  lemma ErrorStatusLeavesFileAlone(respond: Request -> Response, url: Url, dest: Path, existing: Option<seq<byte>>)
    requires RaisesForStatus(respond(Probe(url)).status)
    ensures Expected(respond, url, dest, existing)
            == Effect(Failure(HttpError(respond(Probe(url)).status)), existing, [Probe(url)], None)
  {
  }

  /** Every call that does not raise returns `dest` itself, and only a failing probe raises. */
  lemma ReturnsDestination(respond: Request -> Response, url: Url, dest: Path, existing: Option<seq<byte>>)
    ensures var e := Expected(respond, url, dest, existing);
            (e.result.Failure? <==> RaisesForStatus(respond(Probe(url)).status)) &&
            (e.result.Success? ==> e.result.value == dest && e.file.Some?)
  {
  }

  /** A local file of the announced size is kept as it is and no range request is sent. */
  lemma CompleteFileIsKept(respond: Request -> Response, url: Url, dest: Path, f: seq<byte>)
    requires !RaisesForStatus(respond(Probe(url)).status)
    requires |f| == TotalSize(respond(Probe(url)))
    ensures Expected(respond, url, dest, Some(f)) == Effect(Success(dest), Some(f), [Probe(url)], None)
  {
  }

  /**
    A shorter local file is resumed: a second request asks for `bytes=|f|-`,
    and whatever that response carries is appended, whatever its status.
  */
  lemma ShorterFileIsResumed(respond: Request -> Response, url: Url, dest: Path, f: seq<byte>)
    requires !RaisesForStatus(respond(Probe(url)).status)
    requires |f| < TotalSize(respond(Probe(url)))
    ensures var e := Expected(respond, url, dest, Some(f));
            e.result == Success(dest) &&
            e.requests == [Probe(url), Resume(url, |f|)] &&
            RangeStart(e.requests[1].headers["Range"]) == Some(|f|) &&
            e.file == Some(f + Concat(respond(Resume(url, |f|)).chunks)) &&
            e.streamed == Some(Resume(url, |f|))
  {
    RangeHeaderNamesOffset(|f|);
  }

  /** A longer local file is discarded: the result is exactly the probe's body. */
  lemma LongerFileIsReplaced(respond: Request -> Response, url: Url, dest: Path, f: seq<byte>)
    requires !RaisesForStatus(respond(Probe(url)).status)
    requires |f| > TotalSize(respond(Probe(url)))
    ensures Expected(respond, url, dest, Some(f))
            == Effect(Success(dest), Some(Concat(respond(Probe(url)).chunks)), [Probe(url)], Some(Probe(url)))
  {
  }

  /** An absent file is created with exactly the probe's body. */
  lemma AbsentFileIsDownloaded(respond: Request -> Response, url: Url, dest: Path)
    requires !RaisesForStatus(respond(Probe(url)).status)
    ensures Expected(respond, url, dest, None)
            == Effect(Success(dest), Some(Concat(respond(Probe(url)).chunks)), [Probe(url)], Some(Probe(url)))
  {
  }

  /**
    Without a `content-length` header the announced size is 0: an empty local
    file counts as complete, and any other local file is replaced by the body.
  */
  lemma MissingLengthCountsAsZero(respond: Request -> Response, url: Url, dest: Path, f: seq<byte>)
    requires !RaisesForStatus(respond(Probe(url)).status)
    requires respond(Probe(url)).contentLength.None?
    ensures var e := Expected(respond, url, dest, Some(f));
            e.result == Success(dest) && e.requests == [Probe(url)] &&
            e.file == Some(if f == [] then f else Concat(respond(Probe(url)).chunks)) &&
            e.streamed == (if f == [] then None else Some(Probe(url)))
  {
  }

  /**
    Writing only appends: a local file that is not discarded (it is no longer
    than the announced size) is a prefix of the file left behind.
  */
  lemma KeptBytesAreNeverAltered(respond: Request -> Response, url: Url, dest: Path, f: seq<byte>)
    requires |f| <= TotalSize(respond(Probe(url)))
    ensures var e := Expected(respond, url, dest, Some(f));
            e.file.Some? && f <= e.file.value
  {
  }

  /**
    `respond` serves `content` at `url` faithfully: the probe succeeds and
    announces its length and body, and a range request from any position
    inside it gets the rest of it.
  */
  ghost predicate Serves(respond: Request -> Response, url: Url, content: seq<byte>) {
    var first := respond(Probe(url));
    !RaisesForStatus(first.status) &&
    first.contentLength == Some(|content|) &&
    Concat(first.chunks) == content &&
    forall n: nat :: n < |content| ==> Concat(respond(Resume(url, n)).chunks) == content[n..]
  }

  /**
    Against a faithful server, a resumed, restarted or fresh download leaves
    the same bytes as a fresh one, provided the local file is absent, a prefix
    of the resource or longer than it.
  */
  lemma ResumeMatchesFreshDownload(respond: Request -> Response, url: Url, dest: Path,
                                   existing: Option<seq<byte>>, content: seq<byte>)
    requires Serves(respond, url, content)
    requires existing.Some? ==> existing.value <= content || |existing.value| > |content|
    ensures Expected(respond, url, dest, existing).result == Success(dest)
    ensures Expected(respond, url, dest, existing).file == Some(content)
  {
    if existing.Some? && |existing.value| < |content| {
      var f := existing.value;
      assert Concat(respond(Resume(url, |f|)).chunks) == content[|f|..];
      assert f + content[|f|..] == content;
    } else if existing.Some? && |existing.value| == |content| {
      assert existing.value == content[..|content|] == content;
    }
  }

  /**
    Once a download from a faithful server succeeded, whatever the file was
    before, its size is the announced size, so calling again takes the
    complete path: it only probes, reads no body and changes nothing. When
    the prior file was absent, a prefix of the resource or longer than it,
    the file holds exactly the resource.
  */
  lemma DownloadIsIdempotent(respond: Request -> Response, url: Url, dest: Path,
                             existing: Option<seq<byte>>, content: seq<byte>)
    requires Serves(respond, url, content)
    ensures var first := Expected(respond, url, dest, existing);
            first.result == Success(dest) && first.file.Some? &&
            Decide(first.file, TotalSize(respond(Probe(url)))) == Complete
    ensures var first := Expected(respond, url, dest, existing);
            Expected(respond, url, dest, first.file) == Effect(Success(dest), first.file, [Probe(url)], None)
    ensures (existing.Some? ==> existing.value <= content || |existing.value| > |content|) ==>
            Expected(respond, url, dest, existing).file == Some(content)
  {
    if existing.Some? && |existing.value| < |content| {
      var f := existing.value;
      assert Concat(respond(Resume(url, |f|)).chunks) == content[|f|..];
    }
    if existing.Some? ==> existing.value <= content || |existing.value| > |content| {
      ResumeMatchesFreshDownload(respond, url, dest, existing, content);
    }
  }

  /** The local file system: the bytes held at each path that names a file. */
  class Disk {
    var files: map<Path, seq<byte>>

    constructor (files: map<Path, seq<byte>>)
      ensures this.files == files
    {
      this.files := files;
    }

    /** The contents at `p`, or None when no file is there. */
    function Entry(p: Path): Option<seq<byte>>
      reads this
    {
      if p in files then Some(files[p]) else None
    }

    /** `os.path.exists`. */
    method Exists(p: Path) returns (b: bool)
      ensures b == (p in files)
    {
      b := p in files;
    }

    /** `os.stat(p).st_size`. */
    method Size(p: Path) returns (n: nat)
      requires p in files
      ensures n == |files[p]|
    {
      n := |files[p]|;
    }

    /** `os.remove`. */
    method Remove(p: Path)
      requires p in files
      modifies this
      ensures files == old(files) - {p}
    {
      files := files - {p};
    }

    /** `open(p, "ab")`: creates an empty file when none is there. */
    method OpenAppend(p: Path)
      modifies this
      ensures files == if p in old(files) then old(files) else old(files)[p := []]
    {
      if p !in files {
        files := files[p := []];
      }
    }

    /** `write` on a file opened for appending. */
    method Append(p: Path, chunk: seq<byte>)
      requires p in files
      modifies this
      ensures files == old(files)[p := old(files)[p] + chunk]
    {
      files := files[p := files[p] + chunk];
    }

    /** The `with open(p, "ab")` block: appends the chunks one by one, in order. */
    method WriteAll(p: Path, chunks: seq<seq<byte>>)
      modifies this
      ensures files == old(files)[p := (if p in old(files) then old(files)[p] else []) + Concat(chunks)]
    {
      OpenAppend(p);
      ghost var base := files[p];
      assert Concat(chunks[..0]) == [] && base + [] == base;
      var i := 0;
      while i < |chunks|
        invariant 0 <= i <= |chunks|
        invariant files == old(files)[p := base + Concat(chunks[..i])]
      {
        ConcatSnoc(chunks[..i], chunks[i]);
        assert chunks[..i + 1] == chunks[..i] + [chunks[i]];
        assert base + Concat(chunks[..i + 1]) == (base + Concat(chunks[..i])) + chunks[i];
        Append(p, chunks[i]);
        i := i + 1;
      }
      assert chunks[..i] == chunks;
    }
  }

  /**
    The HTTP transport: a fixed answer per request, the requests sent so far,
    and the requests whose bodies were read so far.
  */
  class Server {
    const respond: Request -> Response
    var log: seq<Request>
    var bodies: seq<Request>

    constructor (respond: Request -> Response)
      ensures this.respond == respond && log == [] && bodies == []
    {
      this.respond := respond;
      log := [];
      bodies := [];
    }

    /** `requests.get(url, headers=..., stream=True)`: the status and headers; the body is not read yet. */
    method Get(req: Request) returns (r: Response)
      modifies this
      ensures log == old(log) + [req] && bodies == old(bodies) && r == respond(req)
    {
      r := respond(req);
      log := log + [req];
    }

    /** `iter_content` on the response to `req`: reads its body, chunk by chunk. */
    method Stream(req: Request) returns (chunks: seq<seq<byte>>)
      modifies this
      ensures log == old(log) && bodies == old(bodies) + [req] && chunks == respond(req).chunks
    {
      chunks := respond(req).chunks;
      bodies := bodies + [req];
    }
  }

  /**
    `download_file(url, dest_path)`: the file at `dest`, the requests sent and
    the result are those of `Expected`; no other file changes.
  */
  method DownloadFile(disk: Disk, server: Server, url: Url, dest: Path) returns (r: Result<Path, HttpError>)
    modifies disk, server
    ensures var e := Expected(server.respond, url, dest, old(disk.Entry(dest)));
            r == e.result && disk.Entry(dest) == e.file && server.log == old(server.log) + e.requests
    ensures var e := Expected(server.respond, url, dest, old(disk.Entry(dest)));
            server.bodies == old(server.bodies) + (if e.streamed.Some? then [e.streamed.value] else [])
    ensures forall p :: p != dest ==> disk.Entry(p) == old(disk.Entry(p))
  {
    ghost var existing := disk.Entry(dest);
    ghost var e := Expected(server.respond, url, dest, existing);
    var fileSize := 0;
    var current := Probe(url);
    var req := server.Get(current);
    if RaisesForStatus(req.status) {
      return Failure(HttpError(req.status));
    }
    var totalSize := TotalSize(req);
    ghost var base: seq<byte> := [];
    var present := disk.Exists(dest);
    if present {
      fileSize := disk.Size(dest);
      if fileSize < totalSize {
        current := Resume(url, fileSize);
        req := server.Get(current);
        base := existing.value;
        assert e.file == Some(base + Concat(req.chunks));
      } else if fileSize == totalSize {
        return Success(dest);
      } else {
        disk.Remove(dest);
        fileSize := 0;
        assert base + Concat(req.chunks) == Concat(req.chunks);
        assert e.file == Some(base + Concat(req.chunks));
      }
    } else {
      assert base + Concat(req.chunks) == Concat(req.chunks);
      assert e.file == Some(base + Concat(req.chunks));
    }
    assert server.log == old(server.log) + e.requests;
    assert e.streamed == Some(current);
    var chunks := server.Stream(current);
    disk.WriteAll(dest, chunks);
    return Success(dest);
  }
}

=== FILE: json.dfy ===
/**
  Decoded JSON values and the Python `dict` operations the client applies to
  them. An object keeps its members in insertion order, as a Python dict does.
*/
module Json {
  import opened Wrappers

  /** A decoded JSON document (numbers other than integers are not modelled). */
  datatype Value =
    | Null
    | Bool(b: bool)
    | Int(i: int)
    | Str(s: string)
    | Arr(items: seq<Value>)
    | Obj(members: seq<(string, Value)>)

  /** The members of a dict, in insertion order. */
  type Members = seq<(string, Value)>

  /** The keys of a dict, in insertion order. */
  function Keys(m: Members): (ks: seq<string>)
    ensures |ks| == |m|
  {
    if m == [] then [] else [m[0].0] + Keys(m[1..])
  }

  /** A Python dict never holds a key twice. */
  predicate DistinctKeys(m: Members) {
    m == [] || (m[0].0 !in Keys(m[1..]) && DistinctKeys(m[1..]))
  }

  /** `d[k]` when the key is there; None when `d[k]` would raise `KeyError`. */
  function Lookup(m: Members, k: string): (r: Option<Value>)
    ensures r.Some? <==> k in Keys(m)
  {
    if m == [] then None else if m[0].0 == k then Some(m[0].1) else Lookup(m[1..], k)
  }

  /** `d[k] = v`: replaces the value in place, or appends the key at the end. */
  function Put(m: Members, k: string, v: Value): (r: Members)
    ensures Lookup(r, k) == Some(v)
  {
    if m == [] then [(k, v)]
    else if m[0].0 == k then
      var r := [(k, v)] + m[1..];
      assert r[1..] == m[1..];
      r
    else
      var r := [m[0]] + Put(m[1..], k, v);
      assert r[1..] == Put(m[1..], k, v);
      r
  }

  /** `d[k] = v` leaves the value of every other key alone. */
  lemma {:induction false} PutOther(m: Members, k: string, v: Value, j: string)
    requires j != k
    ensures Lookup(Put(m, k, v), j) == Lookup(m, j)
  {
    if m != [] {
      assert Put(m, k, v)[1..] == if m[0].0 == k then m[1..] else Put(m[1..], k, v);
      if m[0].0 != k {
        PutOther(m[1..], k, v, j);
      }
    }
  }

  /** `d[k] = v` keeps the order of the keys; a new key comes last. */
  lemma {:induction false} PutKeys(m: Members, k: string, v: Value)
    ensures Keys(Put(m, k, v)) == if k in Keys(m) then Keys(m) else Keys(m) + [k]
  {
    if m != [] && m[0].0 != k {
      PutKeys(m[1..], k, v);
      assert Put(m, k, v)[1..] == Put(m[1..], k, v);
    } else if m != [] {
      assert Put(m, k, v)[1..] == m[1..];
    }
  }

  lemma {:induction false} PutKeepsDistinct(m: Members, k: string, v: Value)
    requires DistinctKeys(m)
    ensures DistinctKeys(Put(m, k, v))
  {
    if m != [] {
      var r := Put(m, k, v);
      if m[0].0 == k {
        assert r[1..] == m[1..];
      } else {
        assert r[1..] == Put(m[1..], k, v);
        PutKeepsDistinct(m[1..], k, v);
        PutKeys(m[1..], k, v);
      }
    }
  }

  /** `del d[k]`: the key is gone afterwards (`DeleteOther` and `DeleteAt` say what stays). */
  function Delete(m: Members, k: string): (r: Members)
    ensures Lookup(r, k) == None
  {
    if m == [] then []
    else if m[0].0 == k then Delete(m[1..], k)
    else
      var r := [m[0]] + Delete(m[1..], k);
      assert r[1..] == Delete(m[1..], k);
      r
  }

  /** `del d[k]` leaves the value of every other key alone. */
  lemma {:induction false} DeleteOther(m: Members, k: string, j: string)
    requires j != k
    ensures Lookup(Delete(m, k), j) == Lookup(m, j)
  {
    if m != [] {
      DeleteOther(m[1..], k, j);
      if m[0].0 != k {
        assert Delete(m, k)[1..] == Delete(m[1..], k);
      }
    }
  }

  lemma {:induction false} DeleteKeepsDistinct(m: Members, k: string)
    requires DistinctKeys(m)
    ensures DistinctKeys(Delete(m, k))
  {
    if m != [] {
      DeleteKeepsDistinct(m[1..], k);
      if m[0].0 != k {
        var r := Delete(m, k);
        assert r[1..] == Delete(m[1..], k);
        DeleteOther(m[1..], k, m[0].0);
      }
    }
  }

  /** The keys of a dict are its members' keys, position by position. */
  lemma {:induction false} KeysAt(m: Members, i: nat)
    requires i < |m|
    ensures Keys(m)[i] == m[i].0
  {
    if i > 0 {
      KeysAt(m[1..], i - 1);
    }
  }

  /** Deleting a key the dict does not hold changes nothing. */
  lemma {:induction false} DeleteAbsent(m: Members, k: string)
    requires k !in Keys(m)
    ensures Delete(m, k) == m
  {
    if m != [] {
      assert Keys(m) == [m[0].0] + Keys(m[1..]);
      DeleteAbsent(m[1..], k);
      assert m == [m[0]] + m[1..];
    }
  }

  /**
    `del d[k]` on a dict with distinct keys removes exactly the member holding
    `k`; every other member keeps its value and its place.
  */
  lemma {:induction false} DeleteAt(m: Members, i: nat)
    requires DistinctKeys(m) && i < |m|
    ensures Delete(m, m[i].0) == m[..i] + m[i + 1..]
  {
    if i == 0 {
      DeleteAbsent(m[1..], m[0].0);
      assert m[..0] + m[1..] == m[1..];
    } else {
      var rest := m[1..];
      assert rest[i - 1] == m[i];
      KeysAt(rest, i - 1);
      DeleteAt(rest, i - 1);
      SkipHead(m, i, Delete(rest, m[i].0));
    }
  }

  /** A deletion that passes over the first member keeps it in front. */
  lemma SkipHead(m: Members, i: nat, tail: Members)
    requires 0 < i < |m| && m[i].0 != m[0].0
    requires Delete(m[1..], m[i].0) == tail == m[1..][..i - 1] + m[1..][i..]
    ensures Delete(m, m[i].0) == m[..i] + m[i + 1..]
  {
    assert Delete(m, m[i].0) == [m[0]] + tail;
    assert m[1..][..i - 1] + m[1..][i..] == m[1..i] + m[i + 1..];
    assert m[..i] == [m[0]] + m[1..i];
  }

  /** Looking a key up in a dict with distinct keys, split off its last member. */
  lemma {:induction false} LookupSnoc(m: Members, k: string)
    requires m != [] && DistinctKeys(m)
    ensures Lookup(m, k) == if m[|m| - 1].0 == k then Some(m[|m| - 1].1) else Lookup(m[..|m| - 1], k)
  {
    if |m| > 1 {
      assert m[1..][..|m| - 2] == m[..|m| - 1][1..];
      LookupSnoc(m[1..], k);
    }
  }

  lemma {:induction false} KeysSnoc(m: Members)
    requires m != []
    ensures Keys(m) == Keys(m[..|m| - 1]) + [m[|m| - 1].0]
  {
    if |m| > 1 {
      assert m[1..][..|m| - 2] == m[..|m| - 1][1..];
      KeysSnoc(m[1..]);
    }
  }

  lemma {:induction false} DistinctKeysInit(m: Members)
    requires m != [] && DistinctKeys(m)
    ensures DistinctKeys(m[..|m| - 1])
  {
    if |m| > 1 {
      assert m[1..][..|m| - 2] == m[..|m| - 1][1..];
      DistinctKeysInit(m[1..]);
      KeysSnoc(m[1..]);
    }
  }

  /**
    `{f(k): v for k, v in d.items()}`: the members in insertion order, each
    stored under its renamed key; a later key renamed like an earlier one
    overwrites its value.
  */
  function RenameKeys(f: string -> string, m: Members): Members {
    if m == [] then [] else Put(RenameKeys(f, m[..|m| - 1]), f(m[|m| - 1].0), m[|m| - 1].1)
  }

  /** The value of the last member of `m` whose key `f` sends to `j`. */
  function LastRenamedTo(f: string -> string, m: Members, j: string): Option<Value> {
    if m == [] then None
    else if f(m[|m| - 1].0) == j then Some(m[|m| - 1].1)
    else LastRenamedTo(f, m[..|m| - 1], j)
  }

  /** Each renamed key holds the value of the last member renamed to it; no other key is present. */
  lemma {:induction false} RenameKeysLookup(f: string -> string, m: Members, j: string)
    ensures Lookup(RenameKeys(f, m), j) == LastRenamedTo(f, m, j)
  {
    if m != [] {
      var last := m[|m| - 1];
      RenameKeysLookup(f, m[..|m| - 1], j);
      if f(last.0) != j {
        PutOther(RenameKeys(f, m[..|m| - 1]), f(last.0), last.1, j);
      }
    }
  }

  /** `f` sends distinct strings of `s` to distinct strings. */
  ghost predicate InjectiveOn(f: string -> string, s: seq<string>) {
    forall a, b :: a in s && b in s && f(a) == f(b) ==> a == b
  }

  /** When no two keys are renamed alike, every key's value moves to its renamed key unchanged. */
  lemma RenameKeysInjective(f: string -> string, m: Members, k: string)
    requires DistinctKeys(m)
    requires InjectiveOn(f, Keys(m) + [k])
    ensures Lookup(RenameKeys(f, m), f(k)) == Lookup(m, k)
  {
    RenameKeysLookup(f, m, f(k));
    LastRenamedToInjective(f, m, k);
  }

  lemma {:induction false} LastRenamedToInjective(f: string -> string, m: Members, k: string)
    requires DistinctKeys(m)
    requires InjectiveOn(f, Keys(m) + [k])
    ensures LastRenamedTo(f, m, f(k)) == Lookup(m, k)
  {
    if m != [] {
      var init := m[..|m| - 1];
      var last := m[|m| - 1];
      KeysSnoc(m);
      LookupSnoc(m, k);
      if f(last.0) != f(k) {
        DistinctKeysInit(m);
        assert InjectiveOn(f, Keys(init) + [k]);
        LastRenamedToInjective(f, init, k);
      }
    }
  }
}

=== FILE: wrappers.dfy ===
/** Optional values and results with an error, shared by the other modules. */
module Wrappers {

  /** A value that may be absent: Python's `None` or a value. */
  datatype Option<+T> = None | Some(value: T)

  /** The outcome of an operation that either returns a value or raises an error. */
  datatype Result<+R, +E> = Success(value: R) | Failure(error: E)
}
